=== FILE: README.md ===
# Share ledger of the trams staking pool, in Dafny

This project models the `transfer` event handler of the trams staking-pool
subgraph (src/bar.ts), together with the record initialisers and loaders it
relies on: `createBar`/`getBar`, `createUser`/`getUser` and `getHistory`.
Holders stake trams into the pool ("the bar") and receive xTrams shares.
Each ERC-20 `Transfer` of xTrams updates three kinds of record:
- the pool record `Bar`: share supply and staked balance read from the chain, the ratio between them, lifetime minted/burned/staked/harvested counters, and the pool's share age;
- one or two holder records `User`: balance, share age, staked/harvested counters, peer-transfer in/out counters and offsets, and membership in the pool;
- the `History` bucket of the event's day.

The handler is modelled as a pure step `Ledger.Transfer(store, event, env)`.
- `Store` holds the pool (absent before the first non-zero transfer), the holders by address and the buckets by day number.
- `TransferEvent` carries the raw 18-decimal amount and the block timestamp.
- `Env` carries the values the handler reads from outside the store: the indexed pool's address, the trams price in USD, and the raw on-chain xTrams supply and staked trams balance.

BigDecimal values are exact `real`s. Timestamps are `int`s. An address is its 160-bit value, and the zero address is `Entities.ZERO`.

The classification follows the code rather than an exclusive three-way split:
- the mint branch runs when `from` is zero;
- the burn branch runs when `to` is zero;
- the peer branch runs when neither is zero.

An event with both addresses zero therefore runs the mint and then the burn. Because the source saves each record inside its branch and later loads see those saves, the model writes every record back into the store at once. The burn then sees the holder and bucket the mint left. On a self-transfer, the receiver is the sender as just saved.

Three properties hold of every event:
- `Invariants.TransferBalanced`: the holders' balances add up to the pool's minted-minus-burned count; the holders' destroyed age adds up to the pool's; and the day buckets add up to the pool's minted, burned and destroyed counters.
- `Invariants.TransferHolders`: every holder's balance is non-negative and equals minted - burned + in - out. A holder is linked to the pool exactly while its balance is positive, it has been credited for every share it received on net, and its age is non-negative. The event may assume that no holder was updated after it and that its sender holds what it spends; afterwards no holder is updated after the event. `Invariants.HoldersChain` shows the assumption carries to the next event, given only that events arrive in time order (the chain's guarantee) and that a sender holds what it spends (the token contract's balance check).
- `Invariants.TransferAgeBalanced`: at any observation time, the pool's age plus the age it recorded as destroyed equals the sum of the holders' ages.

Behaviour of src/bar.ts that the model keeps as written:
- A burning holder's own `xTramsAge` is not reduced by the destroyed age (src/bar.ts:226-237); only the pool's is (src/bar.ts:251). This is why `AgeBalanced` needs the pool's destroyed-age term. It is also why the pool's `xTramsAge` can become negative; `Scenarios.PoolAgeGoesNegative` states a two-burn sequence that does this, starting from a ledger that satisfies every invariant.
- The divisions by the share supply (src/bar.ts:153), by a burning holder's balance (src/bar.ts:232) and by a sender's balance (src/bar.ts:283) are not guarded. The model requires them to be non-zero through the precondition `Ledger.Defined` and does not invent a skip policy.
- A day bucket's `xTramsAge` is overwritten with the pool's age (src/bar.ts:203, 260), not accumulated.
- On a mint, the pool's `tramsStaked` is overwritten with the on-chain balance (src/bar.ts:150) and the minted worth is then added again (src/bar.ts:198). `Invariants.TransferMintStaked` states this.
- The pool's `totalSupply` is a chain read. It is not derived from minted minus burned, and the model keeps the two apart (`Aging.PoolHeld` is the latter).
- A sender with no record makes the age removal divide by zero (src/bar.ts:283), so a holder must hold shares before it can send (`Scenarios.FreshSenderUndefined`). `Scenarios.PassThroughNotCredited` works through the offset step for a holder that minted 30 shares, sent them away and then received 50.
- A new holder record is linked to the pool before it holds any share (src/bar.ts:62).

## Model

| member | source | states |
|---|---|---|
| Entities.CreateBar | src/bar.ts:25-46 | a new pool record has supply, ratio and every counter and age accumulator at zero, and `updatedAt` is the creating block's timestamp |
| Entities.GetBar | src/bar.ts:48-56 | the stored pool record is returned unchanged; when none is stored, a zeroed record for the indexed address, stamped with the block time |
| Entities.CreateUser | src/bar.ts:58-92 | a new holder record has every balance, counter, age and offset at zero, is already linked to the pool, and is stamped with the block time |
| Entities.GetUser | src/bar.ts:94-102 | the stored holder record is returned unchanged; an unseen address gets a zeroed record linked to the pool |
| Entities.DayOf | src/bar.ts:105 | the day number d of a timestamp t that fits a signed 32-bit integer satisfies d*86400 <= t < d*86400 + 86400 |
| Entities.SameDayIff | src/bar.ts:105-112 | two timestamps fall in the same bucket if and only if the second lies in the 86400-second window starting at the first one's bucket date |
| Entities.NewHistory | src/bar.ts:112-125 | a new bucket for a day is dated at the day's first second, has timeframe Day, and has every accumulator and snapshot at zero |
| Entities.GetHistory | src/bar.ts:104-129 | the bucket for a timestamp is the stored one for its day; otherwise a new bucket with the day as id, timeframe Day, every accumulator zero, and date = day * 86400, the day's first second (so date <= timestamp < date + 86400, within 32 bits) |
| Aging.Days | src/bar.ts:181 | elapsed days are (now - since)/86400 as an exact real, non-negative for ordered times and exactly 1 after 86400 seconds |
| Aging.Accrued | src/bar.ts:181-185 | a holder's accrued age is its stored age when no time has passed, grows by exactly its balance over one day, and never falls below the stored age for a non-negative balance and ordered times |
| Aging.PoolAccrued | src/bar.ts:194-197 | the pool's accrued age is its stored age when no time has passed, grows by exactly the outstanding count (minted - burned) over one day, and never falls for a non-negative count |
| Aging.ProportionalAge | src/bar.ts:232 | the age removed with q shares out of a balance b is the average age times q: all of it when q = b, none when q = 0, and between 0 and the age when 0 < q <= b |
| Aging.CarriedAge | src/bar.ts:232-283 | the age that leaves with burned or sent shares is all of the holder's accrued age when the whole balance leaves, none for zero shares, and between 0 and the accrued age for part of the balance |
| Aging.ProportionalKeepsAverage | src/bar.ts:283-285 | removing the proportional age leaves the average age per remaining share unchanged |
| Aging.AccrueThenAdjust | src/bar.ts:181-188 | accruing age on the old balance and then changing the balance by delta changes the age seen at any later time only by delta's own ageing from now on |
| Ledger.Value | src/bar.ts:133-136 | the transferred amount in shares is non-negative and is zero exactly when the raw amount is zero |
| Ledger.Refresh | src/bar.ts:149-153 | after the refresh, supply and staked balance are the chain reads scaled by 1e18; ratio * supply equals the staked balance; the ratio equals the raw balance over the raw supply; nothing else changes |
| Ledger.MintUser | src/bar.ts:169-190 | the minter's age accrues on the balance held before the mint; its balance and minted count grow by value; its staked trams and USD grow by what and what*price; it joins the pool if it held nothing; nothing else changes |
| Ledger.MintBar | src/bar.ts:194-200 | on a mint the pool's minted-minus-burned count rises by exactly value, its age accrues on the shares outstanding before, and its staked trams and USD grow by the minted worth |
| Ledger.MintHistory | src/bar.ts:202-209 | on a mint the day's minted and staked totals grow by the event's amounts, while age, supply and ratio are overwritten with the pool's current values |
| Ledger.Mint | src/bar.ts:158-210 | the mint branch raises the receiver's balance by value, raises the pool's outstanding count by value, keeps the ratio, and touches no other holder and no other day |
| Ledger.BurnUser | src/bar.ts:216-246 | the burner's age accrues but is not reduced; the destroyed age (accrued age / balance * value) is added to its destroyed total; its balance drops by value; it leaves the pool exactly when nothing is left |
| Ledger.BurnBar | src/bar.ts:248-255 | on a burn the pool's minted-minus-burned count falls by exactly value, and its age accrues and then loses the destroyed age, which is added to the pool's destroyed total |
| Ledger.BurnHistory | src/bar.ts:257-265 | on a burn the day's burned, destroyed-age and harvested totals grow by the event's amounts, while age, supply and ratio are overwritten |
| Ledger.Burn | src/bar.ts:213-266 | the burn branch, defined only for a holder with a non-zero balance, lowers that balance and the pool's outstanding count by value, and touches no other holder and no other day |
| Ledger.SendUser | src/bar.ts:276-298 | the sender's accrued age loses the proportional age of the sent shares, which keeps its average age per share; its balance falls by value and its out-counters rise; it leaves the pool exactly when nothing is left |
| Ledger.ReceiveUser | src/bar.ts:300-316 | the receiver joins the pool if unlinked; its age accrues and gains the incoming age; its balance and in-counters rise by value, what and what*price |
| Ledger.Recognise | src/bar.ts:318-339 | if in - out - offset is positive, staked trams and USD grow by the trams and USD differences and all three differences become zero; otherwise the record is unchanged; afterwards the difference is never positive and staked-minus-offset is preserved |
| Ledger.Peer | src/bar.ts:269-342 | a peer transfer moves value shares from sender to receiver (a self-transfer leaves the balance as it was), leaves the pool record and the buckets alone, and touches no third holder |
| Ledger.Worth | src/bar.ts:153-155 | the worth of the transferred shares is zero for a zero amount and, once the ratio is refreshed, their pro-rata part of the staked tokens (worth * supply = value * staked) |
| Ledger.Prepare | src/bar.ts:144-153 | the pool record is loaded or created and refreshed so that ratio * supply equals the staked balance; holders and buckets are untouched |
| Ledger.MintStep | src/bar.ts:158-210 | the mint branch runs only when the sender is the zero address; then it raises the receiver's balance and the pool's outstanding count by value, keeps the ratio, and leaves every other holder as it was |
| Ledger.BurnStep | src/bar.ts:213-266 | the burn branch runs only when the receiver is the zero address; then it lowers the sender's balance and the pool's outstanding count by value, keeps the ratio, and leaves every other holder as it was |
| Ledger.PeerStep | src/bar.ts:269-342 | the peer branch runs only when neither address is zero; it never changes the pool record or the buckets; it moves value from sender to receiver (a self-transfer leaves the balance as it was) and leaves every third holder as it was |
| Ledger.Steps | src/bar.ts:158-342 | the mint, burn and peer branches run in that order, each on the store the previous one left, and none of them changes the refreshed ratio or supply |
| Ledger.Defined | src/bar.ts:105-283 | a non-zero transfer is within the model exactly when the supply is non-zero (src/bar.ts:153), a mint or burn timestamp is at most I32_MAX (src/bar.ts:105; larger timestamps are not modelled), a burning holder's balance after any mint of the same event is non-zero (src/bar.ts:232), and a sender's balance is non-zero (src/bar.ts:283); `Ledger.DefinedExactly` proves this matches each step's own precondition |
| Ledger.DefinedExactly | src/bar.ts:131-342 | the precondition `Defined` of the handler holds if and only if, on the store each step receives, the refresh has a non-zero supply to divide by (src/bar.ts:153), a mint or burn has a timestamp of at most I32_MAX (src/bar.ts:105; larger timestamps are not modelled), a burning holder has a non-zero balance as the mint left it (src/bar.ts:232) and a sender has a non-zero balance (src/bar.ts:283) |
| Ledger.Transfer | src/bar.ts:131-345 | a zero-valued transfer leaves the whole store unchanged; any other transfer leaves a pool record whose supply is the chain read and whose ratio * supply is the on-chain staked balance |
| Invariants.TransferSupply | src/bar.ts:195-196 | one event changes the pool's minted-minus-burned count by +value on a mint, -value on a burn, and not at all on a peer transfer |
| Invariants.TransferMintStaked | src/bar.ts:150-198 | on a mint, the pool's staked trams end as the on-chain balance plus value*ratio, and the receiver's staked trams grow by value*ratio |
| Invariants.TransferBalanced | src/bar.ts:174-265 | if the holders' balances sum to the pool's outstanding count, the holders' destroyed age to the pool's, and the buckets to the pool's minted, burned and destroyed totals, every event keeps all five equalities |
| Invariants.TransferHolders | src/bar.ts:169-339 | for an event no earlier than any holder's last update and whose sender holds what it spends, every holder keeps balance = minted - burned + in - out >= 0, a pool link exactly while the balance is positive, a non-positive uncredited difference, and a non-negative age; afterwards no holder is updated later than the event |
| Invariants.HoldersChain | src/bar.ts:190-311 | after one such event, the next event meets the same assumption as soon as it is not earlier and its sender holds what it spends, so the holder invariant carries along a time-ordered stream |
| Invariants.TransferAgeBalanced | src/bar.ts:181-313 | if, at observation time T, the pool's age plus its destroyed age equals the holders' ages together, every event keeps that equality |
| Invariants.HoldersAgeGrowth | src/bar.ts:181-185 | between two observation times the holders' ages together grow by their total balance times the elapsed days |
| Invariants.PoolAgeGrowth | src/bar.ts:194-197 | between two observation times the pool's age grows by its outstanding count times the elapsed days |
| Invariants.AgeBalancedAnyTime | src/bar.ts:181-197 | while the holders' balances add up to the pool's outstanding count, the age equality at one observation time gives it at every other, so `AgeBalanced` does not depend on when it is observed |
| Invariants.MintUserAge | src/bar.ts:181-190 | after a mint, the holder's age seen at any time T grows only by the new shares' ageing from the mint on |
| Invariants.MintBarAge | src/bar.ts:194-197 | after a mint, the pool's age seen at any time T grows only by the new shares' ageing from the mint on |
| Invariants.BurnUserAge | src/bar.ts:226-237 | after a burn, the holder's age seen at any time T loses only the burned shares' future ageing and keeps the age they had gathered |
| Invariants.BurnBarAge | src/bar.ts:248-251 | after a burn, the pool's age seen at any time T loses the burned shares' future ageing and the destroyed age |
| Invariants.SendUserAge | src/bar.ts:278-288 | after sending, the sender's age seen at any time T loses the sent shares' future ageing and the age that travelled with them |
| Invariants.ReceiveUserAge | src/bar.ts:308-313 | after receiving, the receiver's age seen at any time T gains the received shares' future ageing and the age that travelled with them |
| Invariants.PeerConservesAge | src/bar.ts:278-313 | the sender's and receiver's ages after a peer transfer add up to their two accrued ages before it: the age the sender loses is exactly what the receiver gains |
| Invariants.EmptyBalanced | src/bar.ts:32-41 | the empty ledger satisfies the balance invariant |
| Scenarios.OneDayOfAge | src/bar.ts:181-185 | a holder of 100 shares with no age accrues exactly 100 share-days over one day |
| Scenarios.RepeatedReceiptsCredited | src/bar.ts:318-339 | a holder with no transfer history receiving 50 shares twice is credited each time, and its share offset reaches 50 and then 100 |
| Scenarios.PassThroughNotCredited | src/bar.ts:318-339 | a holder that sent its 30 shares away and then receives 50 is credited only 20 shares' worth |
| Scenarios.FreshSenderUndefined | src/bar.ts:283 | a non-zero peer transfer from an address with no record cannot be processed, because the age removal divides by zero |
| Scenarios.BurnAllKeepsHolderAge | src/bar.ts:226-242 | burning a whole balance of 200 shares with 400 share-days of age destroys 400 share-days and ends the membership, but the holder's age stays 400 |
| Scenarios.FirstMint | src/bar.ts:149-199 | the first mint of 1000 shares against 1000 staked trams gives ratio 1, credits 1000 trams to the minter, and leaves the pool's staked balance at 2000 |
| Scenarios.DayBoundaries | src/bar.ts:105 | timestamps 100000 and 172799 fall on day 1 and 172800 on day 2 |
| Scenarios.SameDayMintsShareBucket | src/bar.ts:202-209 | two mints on the same day land in a single bucket whose minted total is their sum |
| Scenarios.OneHolderSound | src/bar.ts:174-200 | a ledger with one holder that minted 1 share satisfies all three invariants |
| Scenarios.PoolAgeGoesNegative | src/bar.ts:230-251 | from that ledger, two half-share burns (one day later, then at the same instant) leave the pool's age at -0.5 share-days |

## Left out

- `getTramsPrice` (src/bar.ts:19-23) is a call into the trams/USDT pair contract. The price is the input `Env.tramsPrice`.
- The contract reads of `createBar` (src/bar.ts:26-31: decimals, name, trams, symbol) are left out. These are metadata that no computation uses.
- The on-chain `totalSupply` and `balanceOf` reads (src/bar.ts:149-152) are the inputs `Env.totalSupply` and `Env.barBalance`. `dataSource.address()` is `Env.barAddress`.
- `Bar.load`, `User.load`, `History.load` and `.save()` are persistence. They are modelled as the maps of `Store`: an absent key is a record created zeroed.
- Record ids are strings in the source (an address in hex, a day number in decimal). The model keys records by the numbers themselves.
- The `log.*` calls are diagnostics only. The event's transaction hash and block number are used only in logs.
- BigDecimal precision and rounding of graph-ts division are left out (graph-ts keeps 34 significant digits). The model uses exact reals.
- Entities.DayOf: requires the timestamp to fit a signed 32-bit integer, because the source converts it with `toI32()` before dividing. Timestamps above `I32_MAX` (after January 2038) are not modelled.
- Ledger.Defined: requires a mint or burn timestamp of at most `I32_MAX`, for the same reason as `Entities.DayOf`; the model says nothing about larger timestamps.
- src/maker.ts is left out. It only loads and saves entities, binds contracts and slices calldata.
- src/constants.ts is left out except for the zero address, which is `Entities.ZERO`.

=== FILE: aging.dfy ===
/** Time-weighted share age ("xTramsAge"), measured in share-days.

    Age accrues on the balance held before a change: over `d` elapsed days a
    balance `b` gains `d * b`. When shares leave a balance they take the
    average age per share with them. The age a record would show at a later
    observation time `T` if nothing happened to it (`Accrued(u, T)`) is the
    quantity every handler keeps in balance; the lemmas here relate it to the
    accrual step. */
module Aging {
  import opened Entities

  /** Elapsed days between two timestamps, as an exact real: no truncation. */
  function Days(now: int, since: int): (d: real)
    ensures now >= since ==> d >= 0.0
    ensures now == since + SECONDS_PER_DAY ==> d == 1.0
  {
    (now - since) as real / 86400.0
  }

  /** Elapsed days add up along consecutive intervals. */
  lemma DaysAdd(t0: int, t1: int, t2: int)
    ensures Days(t2, t0) == Days(t1, t0) + Days(t2, t1)
  {
  }

  /** The holder's age brought forward to `now` on its current balance: the
      age it shows at `now` if nothing happens to it in between. */
  function Accrued(u: User, now: int): (r: real)
    ensures now == u.updatedAt ==> r == u.xTramsAge
    ensures now == u.updatedAt + SECONDS_PER_DAY ==> r == u.xTramsAge + u.xTrams
    ensures now >= u.updatedAt && u.xTrams >= 0.0 ==> r >= u.xTramsAge
  {
    u.xTramsAge + Days(now, u.updatedAt) * u.xTrams
  }

  /** Shares outstanding by the pool's own count. */
  function PoolHeld(b: Bar): real
  {
    b.xTramsMinted - b.xTramsBurned
  }

  /** The pool's age brought forward to `now` on the shares outstanding. */
  function PoolAccrued(b: Bar, now: int): (r: real)
    ensures now == b.updatedAt ==> r == b.xTramsAge
    ensures now == b.updatedAt + SECONDS_PER_DAY ==> r == b.xTramsAge + PoolHeld(b)
    ensures now >= b.updatedAt && PoolHeld(b) >= 0.0 ==> r >= b.xTramsAge
  {
    b.xTramsAge + Days(now, b.updatedAt) * PoolHeld(b)
  }

  /** The age carried away by `quantity` shares out of a balance of
      `balance` shares with accrued age `age`: the average age per share
      times the quantity. The source divides without checking the balance. */
  function ProportionalAge(age: real, balance: real, quantity: real): (r: real)
    requires balance != 0.0
    ensures quantity == balance ==> r == age
    ensures quantity == 0.0 ==> r == 0.0
    ensures 0.0 <= age && 0.0 < quantity <= balance ==> 0.0 <= r <= age
  {
    var average := age / balance;
    assert quantity == balance ==> average * quantity == age;
    ProportionBounds(age, balance, quantity);
    average * quantity
  }

  /** The age that `value` shares take with them when they leave the
      balance of `u` at `now`, whether burned or sent: the holder's average
      accrued age per share times the quantity. */
  function CarriedAge(u: User, value: real, now: int): (r: real)
    requires u.xTrams != 0.0
    ensures value == u.xTrams ==> r == Accrued(u, now)
    ensures value == 0.0 ==> r == 0.0
    ensures 0.0 <= Accrued(u, now) && 0.0 < value <= u.xTrams ==> 0.0 <= r <= Accrued(u, now)
  {
    ProportionalAge(Accrued(u, now), u.xTrams, value)
  }

  lemma ProportionBounds(age: real, balance: real, quantity: real)
    requires balance != 0.0
    ensures 0.0 <= age && 0.0 < quantity <= balance ==> 0.0 <= age / balance * quantity <= age
  {
    if 0.0 <= age && 0.0 < quantity <= balance {
      var fraction := quantity / balance;
      assert 0.0 < fraction <= 1.0;
      assert age / balance * quantity == age * fraction;
      assert age * fraction <= age * 1.0;
    }
  }

  /** Taking the proportional age away leaves the average age per remaining
      share where it was. */
  lemma ProportionalKeepsAverage(age: real, balance: real, quantity: real)
    requires balance != 0.0 && balance - quantity != 0.0
    ensures (age - ProportionalAge(age, balance, quantity)) / (balance - quantity) == age / balance
  {
    var average := age / balance;
    assert age == average * balance;
    assert age - average * quantity == average * (balance - quantity);
  }

  /** Accruing to `now` and then changing the balance by `delta` changes the
      age seen at any time `T` only by the age `delta` itself gathers from
      `now` on: the accrual step loses no age and invents none. */
  lemma AccrueThenAdjust(age: real, balance: real, since: int, now: int, delta: real, T: int)
    ensures (age + Days(now, since) * balance) + Days(T, now) * (balance + delta)
         == (age + Days(T, since) * balance) + Days(T, now) * delta
  {
    DaysAdd(since, now, T);
    var x, y := Days(now, since), Days(T, now);
    assert y * (balance + delta) == y * balance + y * delta;
    assert x * balance + y * balance == (x + y) * balance;
  }
}

=== FILE: entities.dfy ===
/** The records of the share ledger kept by src/bar.ts: the pool (`Bar`), its
    holders (`User`) and the per-day `History` buckets, with the initialisers
    and loaders the transfer handler relies on.

    BigDecimal fields are exact reals, block timestamps are integers, and an
    address is its 160-bit value. Persistence is a `Store` of maps: a key that
    is absent is a record the handler creates zeroed on first use. */
module Entities {

  /** An account, identified by its 160-bit numeric value. */
  type Address = nat

  /** The zero address: a transfer from it is a mint, a transfer to it a burn. */
  const ZERO: Address := 0

  const SECONDS_PER_DAY: int := 86400

  /** The largest value of a signed 32-bit integer. */
  const I32_MAX: int := 0x7FFF_FFFF

  /** 10^18: on-chain amounts of both tokens carry 18 decimals. */
  const WAD: real := 1000000000000000000.0

  datatype Option<T> = None | Some(value: T)

  /** The pool: share supply and staked balance read from the chain, the
      ratio between them, and lifetime counters. */
  datatype Bar = Bar(
    id: Address,
    totalSupply: real,
    tramsStaked: real,
    tramsStakedUSD: real,
    tramsHarvested: real,
    tramsHarvestedUSD: real,
    xTramsMinted: real,
    xTramsBurned: real,
    xTramsAge: real,
    xTramsAgeDestroyed: real,
    ratio: real,
    updatedAt: int)

  /** A holder of pool shares (xTrams). `bar` is the membership link to the
      pool; the in/out counters and offsets belong to peer transfers. */
  datatype User = User(
    id: Address,
    bar: Option<Address>,
    xTrams: real,
    xTramsMinted: real,
    xTramsBurned: real,
    tramsStaked: real,
    tramsStakedUSD: real,
    tramsHarvested: real,
    tramsHarvestedUSD: real,
    xTramsOut: real,
    tramsOut: real,
    usdOut: real,
    xTramsIn: real,
    tramsIn: real,
    usdIn: real,
    xTramsAge: real,
    xTramsAgeDestroyed: real,
    xTramsOffset: real,
    tramsOffset: real,
    usdOffset: real,
    updatedAt: int)

  datatype Timeframe = Day

  /** One day of pool activity, keyed by the day number `id`. */
  datatype History = History(
    id: int,
    date: int,
    timeframe: Timeframe,
    tramsStaked: real,
    tramsStakedUSD: real,
    tramsHarvested: real,
    tramsHarvestedUSD: real,
    xTramsAge: real,
    xTramsAgeDestroyed: real,
    xTramsMinted: real,
    xTramsBurned: real,
    xTramsSupply: real,
    ratio: real)

  /** Everything the handler persists: the pool record (absent before the
      first non-zero transfer), the holders by address, the buckets by day. */
  datatype Store = Store(bar: Option<Bar>, users: map<Address, User>, histories: map<int, History>)

  /** Every counter and accumulator of the pool is zero. */
  predicate ZeroBar(b: Bar)
  {
    && b.totalSupply == 0.0 && b.ratio == 0.0
    && b.tramsStaked == 0.0 && b.tramsStakedUSD == 0.0
    && b.tramsHarvested == 0.0 && b.tramsHarvestedUSD == 0.0
    && b.xTramsMinted == 0.0 && b.xTramsBurned == 0.0
    && b.xTramsAge == 0.0 && b.xTramsAgeDestroyed == 0.0
  }

  /** Every balance, counter, accumulator and offset of the holder is zero. */
  predicate ZeroUser(u: User)
  {
    && u.xTrams == 0.0 && u.xTramsMinted == 0.0 && u.xTramsBurned == 0.0
    && u.tramsStaked == 0.0 && u.tramsStakedUSD == 0.0
    && u.tramsHarvested == 0.0 && u.tramsHarvestedUSD == 0.0
    && u.xTramsOut == 0.0 && u.tramsOut == 0.0 && u.usdOut == 0.0
    && u.xTramsIn == 0.0 && u.tramsIn == 0.0 && u.usdIn == 0.0
    && u.xTramsAge == 0.0 && u.xTramsAgeDestroyed == 0.0
    && u.xTramsOffset == 0.0 && u.tramsOffset == 0.0 && u.usdOffset == 0.0
  }

  /** Every accumulator and snapshot of the bucket is zero. */
  predicate ZeroHistory(h: History)
  {
    && h.tramsStaked == 0.0 && h.tramsStakedUSD == 0.0
    && h.tramsHarvested == 0.0 && h.tramsHarvestedUSD == 0.0
    && h.xTramsAge == 0.0 && h.xTramsAgeDestroyed == 0.0
    && h.xTramsMinted == 0.0 && h.xTramsBurned == 0.0
    && h.xTramsSupply == 0.0 && h.ratio == 0.0
  }

  /** A new pool record for the pool at `id`, created at `timestamp`. */
  function CreateBar(id: Address, timestamp: int): (b: Bar)
    ensures b.id == id && b.updatedAt == timestamp
    ensures ZeroBar(b)
  {
    Bar(id, 0.0, 0.0, 0.0, 0.0, 0.0, 0.0, 0.0, 0.0, 0.0, 0.0, timestamp)
  }

  /** The stored pool record, or a new one when none is stored yet. */
  function GetBar(stored: Option<Bar>, id: Address, timestamp: int): (b: Bar)
    ensures stored.Some? ==> b == stored.value
    ensures stored.None? ==> b.id == id && b.updatedAt == timestamp && ZeroBar(b)
  {
    match stored
    case Some(bar) => bar
    case None => CreateBar(id, timestamp)
  }

  /** A new holder record for `address`, already linked to the pool `barId`. */
  function CreateUser(address: Address, barId: Address, timestamp: int): (u: User)
    ensures u.id == address && u.bar == Some(barId) && u.updatedAt == timestamp
    ensures ZeroUser(u)
  {
    User(address, Some(barId),
      0.0, 0.0, 0.0, 0.0, 0.0, 0.0, 0.0,
      0.0, 0.0, 0.0, 0.0, 0.0, 0.0,
      0.0, 0.0, 0.0, 0.0, 0.0,
      timestamp)
  }

  /** The stored holder record, or a new one when `address` has none. */
  function GetUser(users: map<Address, User>, address: Address, barId: Address, timestamp: int): (u: User)
    ensures address in users ==> u == users[address]
    ensures address !in users ==> u.id == address && u.bar == Some(barId) && u.updatedAt == timestamp && ZeroUser(u)
  {
    if address in users then users[address] else CreateUser(address, barId, timestamp)
  }

  /** The share balance of `address`: zero for an address never seen. */
  function HeldBy(users: map<Address, User>, address: Address): real
  {
    if address in users then users[address].xTrams else 0.0
  }

  /** The day a timestamp falls in. The source converts the timestamp to a
      signed 32-bit integer first and then divides; on non-negative operands
      that division is the floor. Timestamps above `I32_MAX` are not
      modelled. */
  function DayOf(timestamp: int): (day: int)
    requires 0 <= timestamp <= I32_MAX
    ensures 0 <= day
    ensures day * SECONDS_PER_DAY <= timestamp < day * SECONDS_PER_DAY + SECONDS_PER_DAY
  {
    timestamp / SECONDS_PER_DAY
  }

  /** Two timestamps share a day bucket exactly when the second lies in the
      86400-second window that starts at the first one's bucket date. */
  lemma SameDayIff(t1: int, t2: int)
    requires 0 <= t1 <= I32_MAX && 0 <= t2 <= I32_MAX
    ensures DayOf(t1) == DayOf(t2) <==>
      DayOf(t1) * SECONDS_PER_DAY <= t2 < DayOf(t1) * SECONDS_PER_DAY + SECONDS_PER_DAY
  {
    var d1, d2 := DayOf(t1), DayOf(t2);
    if d1 < d2 {
      assert d1 * SECONDS_PER_DAY + SECONDS_PER_DAY <= d2 * SECONDS_PER_DAY;
    } else if d2 < d1 {
      assert d2 * SECONDS_PER_DAY + SECONDS_PER_DAY <= d1 * SECONDS_PER_DAY;
    }
  }

  /** A new, zeroed bucket for `day`, dated at the day's first second. */
  function NewHistory(day: int): (h: History)
    ensures h.id == day && h.date == day * SECONDS_PER_DAY && h.timeframe == Day
    ensures ZeroHistory(h)
  {
    History(day, day * SECONDS_PER_DAY, Day, 0.0, 0.0, 0.0, 0.0, 0.0, 0.0, 0.0, 0.0, 0.0, 0.0)
  }

  /** The bucket of the day `timestamp` falls in: the stored one, or a new
      zeroed one whose date is the start of that day. The date fits a signed
      32-bit integer, so the source's `day * 86400` cannot overflow. */
  function GetHistory(histories: map<int, History>, timestamp: int): (h: History)
    requires 0 <= timestamp <= I32_MAX
    ensures DayOf(timestamp) in histories ==> h == histories[DayOf(timestamp)]
    ensures DayOf(timestamp) !in histories ==>
      && h.id == DayOf(timestamp) && ZeroHistory(h)
      && h.date == DayOf(timestamp) * SECONDS_PER_DAY && h.timeframe == Day
      && 0 <= h.date <= timestamp < h.date + SECONDS_PER_DAY
      && h.date <= I32_MAX
  {
    var day := DayOf(timestamp);
    if day in histories then histories[day] else NewHistory(day)
  }
}

=== FILE: invariants.dfy ===
/** Invariants the transfer handler keeps across every event.

    - `Balanced`: the holders' balances add up to the pool's minted minus
      burned shares, the holders' destroyed age adds up to the pool's, and
      the day buckets add up to the pool's lifetime minted, burned and
      destroyed counters.
    - `HoldersOk`: every holder has a non-negative balance equal to what it
      minted minus burned plus received minus sent, is linked to the pool
      exactly while that balance is positive, has been credited for every
      share it received on net, and has a non-negative age.
    - `AgeBalanced`: at any observation time the pool's age plus the age it
      has recorded as destroyed equals the holders' ages together. Because a
      burning holder keeps its age while the pool loses it, the destroyed
      term is what makes the two sides meet. */
module Invariants {
  import opened Sums
  import opened Entities
  import opened Aging
  import opened Ledger

  function Balance(u: User): real { u.xTrams }
  function HolderAgeDestroyed(u: User): real { u.xTramsAgeDestroyed }
  function DayMinted(h: History): real { h.xTramsMinted }
  function DayBurned(h: History): real { h.xTramsBurned }
  function DayAgeDestroyed(h: History): real { h.xTramsAgeDestroyed }

  /** Shares outstanding by the pool's count; none before the pool exists. */
  function Outstanding(s: Store): real
  {
    if s.bar.Some? then PoolHeld(s.bar.value) else 0.0
  }

  function PoolMinted(s: Store): real
  {
    if s.bar.Some? then s.bar.value.xTramsMinted else 0.0
  }

  function PoolBurned(s: Store): real
  {
    if s.bar.Some? then s.bar.value.xTramsBurned else 0.0
  }

  function PoolAgeDestroyed(s: Store): real
  {
    if s.bar.Some? then s.bar.value.xTramsAgeDestroyed else 0.0
  }

  ghost predicate Balanced(s: Store)
  {
    && Sum(s.users, Balance) == Outstanding(s)
    && Sum(s.users, HolderAgeDestroyed) == PoolAgeDestroyed(s)
    && Sum(s.histories, DayMinted) == PoolMinted(s)
    && Sum(s.histories, DayBurned) == PoolBurned(s)
    && Sum(s.histories, DayAgeDestroyed) == PoolAgeDestroyed(s)
  }

  /** Nothing has happened yet. */
  lemma EmptyBalanced()
    ensures Balanced(Store(None, map[], map[]))
  {
  }

  // ---------------------------------------------------------------------
  // Effects of one event

  /** The pool's count of outstanding shares rises by the amount on a mint,
      falls by it on a burn, and is untouched by a peer transfer. */
  lemma TransferSupply(s: Store, ev: TransferEvent, env: Env)
    requires Defined(s, ev, env)
    ensures Outstanding(Transfer(s, ev, env))
         == Outstanding(s) + (if IsMint(ev) then Value(ev) else 0.0) - (if IsBurn(ev) then Value(ev) else 0.0)
  {
  }

  /** On a mint, the pool's staked balance ends as the on-chain balance just
      read plus the minted worth once more, and the receiver's staked
      counter grows by that worth, `value * ratio`. */
  lemma TransferMintStaked(s: Store, ev: TransferEvent, env: Env)
    requires Defined(s, ev, env) && ev.value != 0 && IsMint(ev) && !IsBurn(ev)
    ensures var r := Transfer(s, ev, env);
            var what := Value(ev) * r.bar.value.ratio;
            && r.bar.value.tramsStaked == env.barBalance as real / WAD + what
            && ev.to in r.users
            && r.users[ev.to].tramsStaked
               == (if ev.to in s.users then s.users[ev.to].tramsStaked else 0.0) + what
  {
  }

  // ---------------------------------------------------------------------
  // Balanced

  lemma PrepareBalanced(s: Store, ev: TransferEvent, env: Env)
    requires env.totalSupply > 0 && Balanced(s)
    ensures Balanced(Prepare(s, ev, env))
  {
  }

  lemma MintBalanced(s: Store, to: Address, value: real, what: real, price: real, now: int)
    requires s.bar.Some? && 0 <= now <= I32_MAX && Balanced(s)
    ensures Balanced(Mint(s, to, value, what, price, now))
  {
    var bar := s.bar.value;
    var user := GetUser(s.users, to, bar.id, now);
    var user' := MintUser(user, value, what, price, now, bar.id);
    var history := GetHistory(s.histories, now);
    var bar' := MintBar(bar, value, what, what * price, now);
    var history' := MintHistory(history, bar', value, what, what * price);
    SumUpdate(s.users, Balance, to, user');
    SumUpdate(s.users, HolderAgeDestroyed, to, user');
    SumUpdate(s.histories, DayMinted, DayOf(now), history');
    SumUpdate(s.histories, DayBurned, DayOf(now), history');
    SumUpdate(s.histories, DayAgeDestroyed, DayOf(now), history');
  }

  lemma BurnBalanced(s: Store, from: Address, value: real, what: real, price: real, now: int)
    requires s.bar.Some? && 0 <= now <= I32_MAX && HeldBy(s.users, from) != 0.0 && Balanced(s)
    ensures Balanced(Burn(s, from, value, what, price, now))
  {
    var bar := s.bar.value;
    var user := s.users[from];
    var destroyed := CarriedAge(user, value, now);
    var user' := BurnUser(user, value, what, price, now);
    var bar' := BurnBar(bar, value, what, what * price, destroyed, now);
    var history' := BurnHistory(GetHistory(s.histories, now), bar', value, what, what * price, destroyed);
    SumUpdate(s.users, Balance, from, user');
    SumUpdate(s.users, HolderAgeDestroyed, from, user');
    SumUpdate(s.histories, DayMinted, DayOf(now), history');
    SumUpdate(s.histories, DayBurned, DayOf(now), history');
    SumUpdate(s.histories, DayAgeDestroyed, DayOf(now), history');
  }

  lemma PeerBalanced(s: Store, from: Address, to: Address, value: real, what: real, price: real, now: int)
    requires s.bar.Some? && HeldBy(s.users, from) != 0.0 && Balanced(s)
    ensures Balanced(Peer(s, from, to, value, what, price, now))
  {
    var sender := s.users[from];
    var ageOut := CarriedAge(sender, value, now);
    var sent := SendUser(sender, value, what, price, now);
    var users := s.users[from := sent];
    var receiver := GetUser(users, to, s.bar.value.id, now);
    var received := Recognise(ReceiveUser(receiver, value, what, price, ageOut, now, s.bar.value.id));
    SumUpdate(s.users, Balance, from, sent);
    SumUpdate(users, Balance, to, received);
    SumUpdate(s.users, HolderAgeDestroyed, from, sent);
    SumUpdate(users, HolderAgeDestroyed, to, received);
  }

  /** Every event keeps the ledger's totals in agreement. */
  lemma TransferBalanced(s: Store, ev: TransferEvent, env: Env)
    requires Defined(s, ev, env) && Balanced(s)
    ensures Balanced(Transfer(s, ev, env))
  {
    if ev.value != 0 {
      var price := env.tramsPrice;
      var s1 := Prepare(s, ev, env);
      PrepareBalanced(s, ev, env);
      var s2 := MintStep(s1, ev, price);
      if IsMint(ev) {
        MintBalanced(s1, ev.to, Value(ev), Worth(s1, ev), price, ev.timestamp);
      }
      var s3 := BurnStep(s2, ev, price);
      if IsBurn(ev) {
        BurnBalanced(s2, ev.from, Value(ev), Worth(s2, ev), price, ev.timestamp);
      }
      if IsPeer(ev) {
        PeerBalanced(s3, ev.from, ev.to, Value(ev), Worth(s3, ev), price, ev.timestamp);
      }
    }
  }

  // ---------------------------------------------------------------------
  // HoldersOk

  /** What holds of every holder record the handler works on, including
      one just created (which is linked to the pool before it holds any
      share). */
  ghost predicate HolderSound(u: User)
  {
    && u.xTrams >= 0.0
    && (u.xTrams > 0.0 ==> u.bar.Some?)
    && u.xTrams == u.xTramsMinted - u.xTramsBurned + u.xTramsIn - u.xTramsOut
    && NetShares(u) <= 0.0
    && u.xTramsAge >= 0.0
  }

  /** A stored holder is, moreover, linked to the pool only while it holds
      shares. */
  ghost predicate HolderOk(u: User)
  {
    && HolderSound(u)
    && (u.bar.Some? ==> u.xTrams > 0.0)
  }

  ghost predicate HoldersOk(users: map<Address, User>)
  {
    forall a :: a in users ==> HolderOk(users[a])
  }

  /** No holder was last updated after `now`. */
  predicate NotAfter(users: map<Address, User>, now: int)
  {
    forall a :: a in users ==> users[a].updatedAt <= now
  }

  /** What an event may assume of the ledger it arrives at: no holder was
      last updated after it, and its sender holds at least the shares it
      sends or burns. The first part follows from the chain delivering
      events in time order, because every update stamps the event's own time
      (`HoldersChain`); the second is the token contract's balance check. */
  predicate ChainConsistent(s: Store, ev: TransferEvent)
  {
    && NotAfter(s.users, ev.timestamp)
    && (ev.from != ZERO ==> Value(ev) <= HeldBy(s.users, ev.from))
  }

  lemma AccruedNonNegative(u: User, now: int)
    requires u.xTramsAge >= 0.0 && u.xTrams >= 0.0 && u.updatedAt <= now
    ensures Accrued(u, now) >= 0.0
  {
    assert Days(now, u.updatedAt) * u.xTrams >= 0.0;
  }

  lemma CreatedUserOk(address: Address, users: map<Address, User>, barId: Address, now: int)
    requires HoldersOk(users)
    ensures HolderSound(GetUser(users, address, barId, now))
  {
  }

  lemma MintHolders(s: Store, to: Address, value: real, what: real, price: real, now: int)
    requires s.bar.Some? && 0 <= now <= I32_MAX && value > 0.0
    requires HoldersOk(s.users) && NotAfter(s.users, now)
    ensures HoldersOk(Mint(s, to, value, what, price, now).users)
    ensures NotAfter(Mint(s, to, value, what, price, now).users, now)
  {
    var user := GetUser(s.users, to, s.bar.value.id, now);
    CreatedUserOk(to, s.users, s.bar.value.id, now);
    AccruedNonNegative(user, now);
  }

  lemma BurnHolders(s: Store, from: Address, value: real, what: real, price: real, now: int)
    requires s.bar.Some? && 0 <= now <= I32_MAX && 0.0 < value <= HeldBy(s.users, from)
    requires HoldersOk(s.users) && NotAfter(s.users, now)
    ensures HoldersOk(Burn(s, from, value, what, price, now).users)
    ensures NotAfter(Burn(s, from, value, what, price, now).users, now)
  {
    AccruedNonNegative(s.users[from], now);
  }

  lemma PeerHolders(s: Store, from: Address, to: Address, value: real, what: real, price: real, now: int)
    requires s.bar.Some? && 0.0 < value <= HeldBy(s.users, from)
    requires HoldersOk(s.users) && NotAfter(s.users, now)
    ensures HoldersOk(Peer(s, from, to, value, what, price, now).users)
    ensures NotAfter(Peer(s, from, to, value, what, price, now).users, now)
  {
    var sender := s.users[from];
    AccruedNonNegative(sender, now);
    var ageOut := CarriedAge(sender, value, now);
    assert 0.0 <= ageOut <= Accrued(sender, now);
    var sent := SendUser(sender, value, what, price, now);
    assert HolderOk(sent);
    var users := s.users[from := sent];
    var receiver := GetUser(users, to, s.bar.value.id, now);
    CreatedUserOk(to, users, s.bar.value.id, now);
    AccruedNonNegative(receiver, now);
    var received := ReceiveUser(receiver, value, what, price, ageOut, now, s.bar.value.id);
    assert HolderOk(Recognise(received));
  }

  /** Every event the chain can deliver keeps every holder sound, and
      leaves no holder updated later than the event itself. */
  lemma TransferHolders(s: Store, ev: TransferEvent, env: Env)
    requires Defined(s, ev, env) && ChainConsistent(s, ev) && HoldersOk(s.users)
    ensures HoldersOk(Transfer(s, ev, env).users)
    ensures NotAfter(Transfer(s, ev, env).users, ev.timestamp)
  {
    if ev.value != 0 {
      var price := env.tramsPrice;
      var now := ev.timestamp;
      var s1 := Prepare(s, ev, env);
      var s2 := MintStep(s1, ev, price);
      if IsMint(ev) {
        MintHolders(s1, ev.to, Value(ev), Worth(s1, ev), price, now);
      }
      assert HoldersOk(s2.users) && NotAfter(s2.users, now);
      assert IsBurn(ev) ==> Value(ev) <= HeldBy(s2.users, ev.from);
      var s3 := BurnStep(s2, ev, price);
      if IsBurn(ev) {
        BurnHolders(s2, ev.from, Value(ev), Worth(s2, ev), price, now);
      }
      if IsPeer(ev) {
        PeerHolders(s3, ev.from, ev.to, Value(ev), Worth(s3, ev), price, now);
      }
    }
  }

  /** The holder invariant carries over an event stream: after one event,
      a next event that is not earlier and whose sender holds what it spends
      again meets `ChainConsistent`. */
  lemma HoldersChain(s: Store, ev: TransferEvent, env: Env, next: TransferEvent)
    requires Defined(s, ev, env) && ChainConsistent(s, ev) && HoldersOk(s.users)
    requires ev.timestamp <= next.timestamp
    requires next.from != ZERO ==> Value(next) <= HeldBy(Transfer(s, ev, env).users, next.from)
    ensures HoldersOk(Transfer(s, ev, env).users)
    ensures ChainConsistent(Transfer(s, ev, env), next)
  {
    TransferHolders(s, ev, env);
  }

  // ---------------------------------------------------------------------
  // AgeBalanced

  /** The age every holder would show at observation time `T`. */
  function AgeAtTime(T: int): User -> real
  {
    u => Accrued(u, T)
  }

  /** The pool's age at observation time `T`; none before the pool exists. */
  function PoolAgeAtTime(s: Store, T: int): real
  {
    if s.bar.Some? then PoolAccrued(s.bar.value, T) else 0.0
  }

  ghost predicate AgeBalanced(s: Store, T: int)
  {
    PoolAgeAtTime(s, T) + PoolAgeDestroyed(s) == Sum(s.users, AgeAtTime(T))
  }

  /** Between two observation times each holder's age grows by its balance
      times the elapsed days, so the holders' ages together grow by their
      total balance times the elapsed days. */
  lemma HoldersAgeGrowth(users: map<Address, User>, T: int, T2: int)
    ensures Sum(users, AgeAtTime(T2)) == Sum(users, AgeAtTime(T)) + Days(T2, T) * Sum(users, Balance)
  {
    EveryHolderAgeGrowth(T, T2);
    SumLinear(users, AgeAtTime(T2), AgeAtTime(T), Balance, Days(T2, T));
  }

  lemma EveryHolderAgeGrowth(T: int, T2: int)
    ensures forall u: User :: AgeAtTime(T2)(u) == AgeAtTime(T)(u) + Days(T2, T) * Balance(u)
  {
    forall u: User
      ensures AgeAtTime(T2)(u) == AgeAtTime(T)(u) + Days(T2, T) * Balance(u)
    {
      HolderAccruedLater(u, T, T2);
    }
  }

  /** The pool's age grows the same way, on its outstanding count. */
  lemma PoolAgeGrowth(s: Store, T: int, T2: int)
    ensures PoolAgeAtTime(s, T2) == PoolAgeAtTime(s, T) + Days(T2, T) * Outstanding(s)
    ensures Sum(s.users, Balance) == Outstanding(s) ==>
      PoolAgeAtTime(s, T2) == PoolAgeAtTime(s, T) + Days(T2, T) * Sum(s.users, Balance)
  {
    if s.bar.Some? {
      var b := s.bar.value;
      AccruedLater(b.xTramsAge, PoolHeld(b), b.updatedAt, T, T2);
    }
  }

  lemma HolderAccruedLater(u: User, T: int, T2: int)
    ensures Accrued(u, T2) == Accrued(u, T) + Days(T2, T) * u.xTrams
  {
    AccruedLater(u.xTramsAge, u.xTrams, u.updatedAt, T, T2);
  }

  /** An age accrued on a fixed balance, seen at two times. */
  lemma AccruedLater(age: real, balance: real, since: int, T: int, T2: int)
    ensures age + Days(T2, since) * balance == (age + Days(T, since) * balance) + Days(T2, T) * balance
  {
    DaysAdd(since, T, T2);
    var x, y := Days(T, since), Days(T2, T);
    assert (x + y) * balance == x * balance + y * balance;
  }

  /** The age invariant does not depend on the observation time while the
      holders' balances add up to the pool's outstanding count: the pool ages
      on that count and the holders on their balances, so both sides grow
      alike. */
  lemma AgeBalancedAnyTime(s: Store, T: int, T2: int)
    requires Sum(s.users, Balance) == Outstanding(s)
    requires AgeBalanced(s, T)
    ensures AgeBalanced(s, T2)
  {
    HoldersAgeGrowth(s.users, T, T2);
    PoolAgeGrowth(s, T, T2);
  }

  /** A holder seen for the first time has no age at any time. */
  lemma CreatedUserAge(users: map<Address, User>, address: Address, barId: Address, now: int, T: int)
    ensures Accrued(GetUser(users, address, barId, now), T)
         == (if address in users then Accrued(users[address], T) else 0.0)
  {
  }

  /** The minted shares start ageing at the mint: nothing else changes the
      holder's age as seen at any later time. */
  lemma MintUserAge(u: User, value: real, what: real, price: real, now: int, barId: Address, T: int)
    ensures Accrued(MintUser(u, value, what, price, now, barId), T) == Accrued(u, T) + Days(T, now) * value
  {
    AccrueThenAdjust(u.xTramsAge, u.xTrams, u.updatedAt, now, value, T);
  }

  lemma MintBarAge(b: Bar, value: real, what: real, usd: real, now: int, T: int)
    ensures PoolAccrued(MintBar(b, value, what, usd, now), T) == PoolAccrued(b, T) + Days(T, now) * value
  {
    AccrueThenAdjust(b.xTramsAge, PoolHeld(b), b.updatedAt, now, value, T);
  }

  /** The burned shares stop ageing at the burn, but the holder keeps the
      age they had gathered. */
  lemma BurnUserAge(u: User, value: real, what: real, price: real, now: int, T: int)
    requires u.xTrams != 0.0
    ensures Accrued(BurnUser(u, value, what, price, now), T) == Accrued(u, T) - Days(T, now) * value
  {
    AccrueThenAdjust(u.xTramsAge, u.xTrams, u.updatedAt, now, -value, T);
  }

  /** The pool loses both the future age of the burned shares and the age
      the holder destroyed. */
  lemma BurnBarAge(b: Bar, value: real, what: real, usd: real, destroyed: real, now: int, T: int)
    ensures PoolAccrued(BurnBar(b, value, what, usd, destroyed, now), T)
         == PoolAccrued(b, T) - Days(T, now) * value - destroyed
  {
    AccrueThenAdjust(b.xTramsAge, PoolHeld(b), b.updatedAt, now, -value, T);
  }

  lemma SendUserAge(u: User, value: real, what: real, price: real, now: int, T: int)
    requires u.xTrams != 0.0
    ensures Accrued(SendUser(u, value, what, price, now), T)
         == Accrued(u, T) - Days(T, now) * value - CarriedAge(u, value, now)
  {
    AccrueThenAdjust(u.xTramsAge, u.xTrams, u.updatedAt, now, -value, T);
  }

  lemma ReceiveUserAge(u: User, value: real, what: real, price: real, ageIn: real, now: int, barId: Address, T: int)
    ensures Accrued(Recognise(ReceiveUser(u, value, what, price, ageIn, now, barId)), T)
         == Accrued(u, T) + Days(T, now) * value + ageIn
  {
    AccrueThenAdjust(u.xTramsAge, u.xTrams, u.updatedAt, now, value, T);
  }

  /** On a peer transfer between two holders, the age the sender loses is
      exactly the age the receiver gains on top of its own accrual: the two
      holders' combined accrued age is conserved. */
  lemma PeerConservesAge(sender: User, receiver: User, value: real, what: real, price: real, now: int, barId: Address)
    requires sender.xTrams != 0.0
    ensures SendUser(sender, value, what, price, now).xTramsAge
          + Recognise(ReceiveUser(receiver, value, what, price, CarriedAge(sender, value, now), now, barId)).xTramsAge
         == Accrued(sender, now) + Accrued(receiver, now)
  {
  }

  lemma PrepareAgeBalanced(s: Store, ev: TransferEvent, env: Env, T: int)
    requires env.totalSupply > 0 && AgeBalanced(s, T)
    ensures AgeBalanced(Prepare(s, ev, env), T)
  {
  }

  lemma MintAgeBalanced(s: Store, to: Address, value: real, what: real, price: real, now: int, T: int)
    requires s.bar.Some? && 0 <= now <= I32_MAX && AgeBalanced(s, T)
    ensures AgeBalanced(Mint(s, to, value, what, price, now), T)
  {
    var bar := s.bar.value;
    var user := GetUser(s.users, to, bar.id, now);
    var user' := MintUser(user, value, what, price, now, bar.id);
    CreatedUserAge(s.users, to, bar.id, now, T);
    MintUserAge(user, value, what, price, now, bar.id, T);
    MintBarAge(bar, value, what, what * price, now, T);
    SumUpdate(s.users, AgeAtTime(T), to, user');
  }

  lemma BurnAgeBalanced(s: Store, from: Address, value: real, what: real, price: real, now: int, T: int)
    requires s.bar.Some? && 0 <= now <= I32_MAX && HeldBy(s.users, from) != 0.0 && AgeBalanced(s, T)
    ensures AgeBalanced(Burn(s, from, value, what, price, now), T)
  {
    var bar := s.bar.value;
    var user := s.users[from];
    var destroyed := CarriedAge(user, value, now);
    var user' := BurnUser(user, value, what, price, now);
    BurnUserAge(user, value, what, price, now, T);
    BurnBarAge(bar, value, what, what * price, destroyed, now, T);
    SumUpdate(s.users, AgeAtTime(T), from, user');
  }

  lemma PeerAgeBalanced(s: Store, from: Address, to: Address, value: real, what: real, price: real, now: int, T: int)
    requires s.bar.Some? && HeldBy(s.users, from) != 0.0 && AgeBalanced(s, T)
    ensures AgeBalanced(Peer(s, from, to, value, what, price, now), T)
  {
    var sender := s.users[from];
    var ageOut := CarriedAge(sender, value, now);
    var sent := SendUser(sender, value, what, price, now);
    var users := s.users[from := sent];
    var receiver := GetUser(users, to, s.bar.value.id, now);
    var received := Recognise(ReceiveUser(receiver, value, what, price, ageOut, now, s.bar.value.id));
    SendUserAge(sender, value, what, price, now, T);
    CreatedUserAge(users, to, s.bar.value.id, now, T);
    ReceiveUserAge(receiver, value, what, price, ageOut, now, s.bar.value.id, T);
    SumUpdate(s.users, AgeAtTime(T), from, sent);
    SumUpdate(users, AgeAtTime(T), to, received);
  }

  /** Every event keeps the pool's age, plus what it recorded as destroyed,
      equal to the holders' ages together, as seen at any time `T`. */
  lemma TransferAgeBalanced(s: Store, ev: TransferEvent, env: Env, T: int)
    requires Defined(s, ev, env) && AgeBalanced(s, T)
    ensures AgeBalanced(Transfer(s, ev, env), T)
  {
    if ev.value != 0 {
      var price := env.tramsPrice;
      var s1 := Prepare(s, ev, env);
      PrepareAgeBalanced(s, ev, env, T);
      var s2 := MintStep(s1, ev, price);
      if IsMint(ev) {
        MintAgeBalanced(s1, ev.to, Value(ev), Worth(s1, ev), price, ev.timestamp, T);
      }
      var s3 := BurnStep(s2, ev, price);
      if IsBurn(ev) {
        BurnAgeBalanced(s2, ev.from, Value(ev), Worth(s2, ev), price, ev.timestamp, T);
      }
      if IsPeer(ev) {
        PeerAgeBalanced(s3, ev.from, ev.to, Value(ev), Worth(s3, ev), price, ev.timestamp, T);
      }
    }
  }
}

=== FILE: ledger.dfy ===
/** The `transfer` handler of src/bar.ts as a pure step on a `Store`.

    A transfer event is classified by its addresses: from the zero address
    it is a mint, to the zero address a burn, between two other addresses a
    peer transfer. After refreshing the pool ratio from two chain reads, each
    case applies a fixed sequence of updates to the pool record, one or two
    holder records and (for mint and burn) the bucket of the event's day.

    Every record the source saves inside a branch is written back into the
    store at once, so that a later load in the same event sees it: when both
    addresses are zero the burn works on the holder and bucket the mint just
    saved, and on a self-transfer the receiver is the sender as just saved. */
module Ledger {
  import opened Entities
  import opened Aging

  /** A share-transfer notification; `value` is the raw 18-decimal amount. */
  datatype TransferEvent = TransferEvent(from: Address, to: Address, value: nat, timestamp: nat)

  /** What the handler reads from outside the store for one event: the
      address of the pool being indexed, the staked token's price in USD,
      and the raw on-chain share supply and staked balance of the pool. */
  datatype Env = Env(barAddress: Address, tramsPrice: real, totalSupply: nat, barBalance: nat)

  /** The transferred amount in whole shares. */
  function Value(ev: TransferEvent): (v: real)
    ensures v >= 0.0
    ensures v == 0.0 <==> ev.value == 0
  {
    ev.value as real / WAD
  }

  predicate IsMint(ev: TransferEvent) { ev.from == ZERO }
  predicate IsBurn(ev: TransferEvent) { ev.to == ZERO }
  predicate IsPeer(ev: TransferEvent) { ev.from != ZERO && ev.to != ZERO }

  /** Shares minus what peer transfers sent out minus what was already
      recognised as staked: positive when the holder has received shares it
      has not yet been credited for. */
  function NetShares(u: User): real { u.xTramsIn - u.xTramsOut - u.xTramsOffset }

  /** The same difference in staked-token units. */
  function NetTrams(u: User): real { u.tramsIn - u.tramsOut - u.tramsOffset }

  /** The same difference in USD. */
  function NetUsd(u: User): real { u.usdIn - u.usdOut - u.usdOffset }

  // ---------------------------------------------------------------------
  // Pool ratio

  /** Overwrites the pool's supply and staked balance with the chain reads
      and derives the ratio of staked tokens per share. The source divides by
      the supply without a check. */
  function Refresh(b: Bar, env: Env): (r: Bar)
    requires env.totalSupply > 0
    ensures r.totalSupply == env.totalSupply as real / WAD && r.totalSupply > 0.0
    ensures r.tramsStaked == env.barBalance as real / WAD
    ensures r.ratio * r.totalSupply == r.tramsStaked
    ensures r.ratio == env.barBalance as real / env.totalSupply as real
    ensures r.(totalSupply := b.totalSupply, tramsStaked := b.tramsStaked, ratio := b.ratio) == b
  {
    var supply := env.totalSupply as real / WAD;
    var staked := env.barBalance as real / WAD;
    assert staked / supply == env.barBalance as real / env.totalSupply as real;
    b.(totalSupply := supply, tramsStaked := staked, ratio := staked / supply)
  }

  // ---------------------------------------------------------------------
  // Mint

  /** The minting holder: age accrues on the balance held before the mint,
      then the balance grows by the minted shares and the staked counters by
      their token and USD worth. A holder with no shares joins the pool. */
  function MintUser(u: User, value: real, what: real, price: real, now: int, barId: Address): (r: User)
    ensures r.xTrams == u.xTrams + value
    ensures r.xTramsAge == Accrued(u, now) && r.updatedAt == now
    ensures r.bar == (if u.xTrams == 0.0 then Some(barId) else u.bar)
    ensures r.xTramsMinted == u.xTramsMinted + value
    ensures r.tramsStaked == u.tramsStaked + what
    ensures r.tramsStakedUSD == u.tramsStakedUSD + what * price
    ensures r.(xTrams := u.xTrams, xTramsAge := u.xTramsAge, updatedAt := u.updatedAt, bar := u.bar,
               xTramsMinted := u.xTramsMinted, tramsStaked := u.tramsStaked,
               tramsStakedUSD := u.tramsStakedUSD) == u
  {
    u.(bar := if u.xTrams == 0.0 then Some(barId) else u.bar,
       xTramsMinted := u.xTramsMinted + value,
       tramsStaked := u.tramsStaked + what,
       tramsStakedUSD := u.tramsStakedUSD + what * price,
       xTramsAge := Accrued(u, now),
       xTrams := u.xTrams + value,
       updatedAt := now)
  }

  /** The pool on a mint: its age accrues on the shares outstanding before
      the mint, and the staked balance just read from the chain is then
      increased by the minted worth once more. */
  function MintBar(b: Bar, value: real, what: real, usd: real, now: int): (r: Bar)
    ensures PoolHeld(r) == PoolHeld(b) + value
    ensures r.xTramsAge == PoolAccrued(b, now) && r.updatedAt == now
    ensures r.tramsStaked == b.tramsStaked + what && r.tramsStakedUSD == b.tramsStakedUSD + usd
    ensures r.(xTramsMinted := b.xTramsMinted, xTramsAge := b.xTramsAge, updatedAt := b.updatedAt,
               tramsStaked := b.tramsStaked, tramsStakedUSD := b.tramsStakedUSD) == b
  {
    b.(xTramsMinted := b.xTramsMinted + value,
       xTramsAge := PoolAccrued(b, now),
       tramsStaked := b.tramsStaked + what,
       tramsStakedUSD := b.tramsStakedUSD + usd,
       updatedAt := now)
  }

  /** The day bucket on a mint: minted shares and staked worth are summed
      into it; age, supply and ratio are overwritten with the pool's values. */
  function MintHistory(h: History, b: Bar, value: real, what: real, usd: real): (r: History)
    ensures r.xTramsMinted == h.xTramsMinted + value
    ensures r.tramsStaked == h.tramsStaked + what && r.tramsStakedUSD == h.tramsStakedUSD + usd
    ensures r.xTramsAge == b.xTramsAge && r.xTramsSupply == b.totalSupply && r.ratio == b.ratio
    ensures r.(xTramsMinted := h.xTramsMinted, tramsStaked := h.tramsStaked, tramsStakedUSD := h.tramsStakedUSD,
               xTramsAge := h.xTramsAge, xTramsSupply := h.xTramsSupply, ratio := h.ratio) == h
  {
    h.(xTramsAge := b.xTramsAge,
       xTramsMinted := h.xTramsMinted + value,
       xTramsSupply := b.totalSupply,
       tramsStaked := h.tramsStaked + what,
       tramsStakedUSD := h.tramsStakedUSD + usd,
       ratio := b.ratio)
  }

  /** The mint branch: `to` receives `value` new shares worth `what` tokens. */
  function Mint(s: Store, to: Address, value: real, what: real, price: real, now: int): (r: Store)
    requires s.bar.Some?
    requires 0 <= now <= I32_MAX
    ensures r.bar.Some? && r.bar.value.ratio == s.bar.value.ratio && r.bar.value.id == s.bar.value.id
    ensures r.bar.value.totalSupply == s.bar.value.totalSupply
    ensures PoolHeld(r.bar.value) == PoolHeld(s.bar.value) + value
    ensures r.users.Keys == s.users.Keys + {to}
    ensures HeldBy(r.users, to) == HeldBy(s.users, to) + value
    ensures forall a :: a in s.users && a != to ==> r.users[a] == s.users[a]
    ensures r.histories.Keys == s.histories.Keys + {DayOf(now)}
    ensures forall d :: d in s.histories && d != DayOf(now) ==> r.histories[d] == s.histories[d]
  {
    var bar := s.bar.value;
    var usd := what * price;
    var user := MintUser(GetUser(s.users, to, bar.id, now), value, what, price, now, bar.id);
    var bar' := MintBar(bar, value, what, usd, now);
    var history := MintHistory(GetHistory(s.histories, now), bar', value, what, usd);
    Store(Some(bar'), s.users[to := user], s.histories[DayOf(now) := history])
  }

  // ---------------------------------------------------------------------
  // Burn

  /** The burning holder: its age accrues on the balance before the burn and
      the destroyed age is counted, but its own age is NOT reduced by it;
      the balance drops by the burned shares and the holder leaves the pool
      exactly when nothing is left. */
  function BurnUser(u: User, value: real, what: real, price: real, now: int): (r: User)
    requires u.xTrams != 0.0
    ensures r.xTrams == u.xTrams - value
    ensures r.xTramsAge == Accrued(u, now) && r.updatedAt == now
    ensures r.xTramsAgeDestroyed == u.xTramsAgeDestroyed + CarriedAge(u, value, now)
    ensures r.bar.None? <==> (r.xTrams == 0.0 || u.bar.None?)
    ensures r.xTrams != 0.0 ==> r.bar == u.bar
    ensures r.xTramsBurned == u.xTramsBurned + value
    ensures r.tramsHarvested == u.tramsHarvested + what
    ensures r.tramsHarvestedUSD == u.tramsHarvestedUSD + what * price
    ensures r.(xTrams := u.xTrams, xTramsAge := u.xTramsAge, updatedAt := u.updatedAt, bar := u.bar,
               xTramsAgeDestroyed := u.xTramsAgeDestroyed, xTramsBurned := u.xTramsBurned,
               tramsHarvested := u.tramsHarvested, tramsHarvestedUSD := u.tramsHarvestedUSD) == u
  {
    var age := Accrued(u, now);
    var destroyed := ProportionalAge(age, u.xTrams, value);
    var left := u.xTrams - value;
    u.(xTramsBurned := u.xTramsBurned + value,
       tramsHarvested := u.tramsHarvested + what,
       tramsHarvestedUSD := u.tramsHarvestedUSD + what * price,
       xTramsAge := age,
       xTramsAgeDestroyed := u.xTramsAgeDestroyed + destroyed,
       xTrams := left,
       bar := if left == 0.0 then None else u.bar,
       updatedAt := now)
  }

  /** The pool on a burn: its age accrues on the shares outstanding before
      the burn and then loses the age the holder destroyed. */
  function BurnBar(b: Bar, value: real, what: real, usd: real, destroyed: real, now: int): (r: Bar)
    ensures PoolHeld(r) == PoolHeld(b) - value
    ensures r.xTramsAge == PoolAccrued(b, now) - destroyed && r.updatedAt == now
    ensures r.xTramsAgeDestroyed == b.xTramsAgeDestroyed + destroyed
    ensures r.tramsHarvested == b.tramsHarvested + what && r.tramsHarvestedUSD == b.tramsHarvestedUSD + usd
    ensures r.(xTramsBurned := b.xTramsBurned, xTramsAge := b.xTramsAge, updatedAt := b.updatedAt,
               xTramsAgeDestroyed := b.xTramsAgeDestroyed, tramsHarvested := b.tramsHarvested,
               tramsHarvestedUSD := b.tramsHarvestedUSD) == b
  {
    b.(xTramsBurned := b.xTramsBurned + value,
       xTramsAge := PoolAccrued(b, now) - destroyed,
       xTramsAgeDestroyed := b.xTramsAgeDestroyed + destroyed,
       tramsHarvested := b.tramsHarvested + what,
       tramsHarvestedUSD := b.tramsHarvestedUSD + usd,
       updatedAt := now)
  }

  /** The day bucket on a burn: burned shares, destroyed age and harvested
      worth are summed into it; age, supply and ratio are overwritten. */
  function BurnHistory(h: History, b: Bar, value: real, what: real, usd: real, destroyed: real): (r: History)
    ensures r.xTramsBurned == h.xTramsBurned + value
    ensures r.xTramsAgeDestroyed == h.xTramsAgeDestroyed + destroyed
    ensures r.tramsHarvested == h.tramsHarvested + what && r.tramsHarvestedUSD == h.tramsHarvestedUSD + usd
    ensures r.xTramsAge == b.xTramsAge && r.xTramsSupply == b.totalSupply && r.ratio == b.ratio
    ensures r.(xTramsBurned := h.xTramsBurned, xTramsAgeDestroyed := h.xTramsAgeDestroyed,
               tramsHarvested := h.tramsHarvested, tramsHarvestedUSD := h.tramsHarvestedUSD,
               xTramsAge := h.xTramsAge, xTramsSupply := h.xTramsSupply, ratio := h.ratio) == h
  {
    h.(xTramsSupply := b.totalSupply,
       xTramsBurned := h.xTramsBurned + value,
       xTramsAge := b.xTramsAge,
       xTramsAgeDestroyed := h.xTramsAgeDestroyed + destroyed,
       tramsHarvested := h.tramsHarvested + what,
       tramsHarvestedUSD := h.tramsHarvestedUSD + usd,
       ratio := b.ratio)
  }

  /** The burn branch: `from` gives back `value` shares worth `what` tokens.
      The holder must hold shares: the source divides by its balance. */
  function Burn(s: Store, from: Address, value: real, what: real, price: real, now: int): (r: Store)
    requires s.bar.Some?
    requires 0 <= now <= I32_MAX
    requires HeldBy(s.users, from) != 0.0
    ensures r.bar.Some? && r.bar.value.ratio == s.bar.value.ratio && r.bar.value.id == s.bar.value.id
    ensures r.bar.value.totalSupply == s.bar.value.totalSupply
    ensures PoolHeld(r.bar.value) == PoolHeld(s.bar.value) - value
    ensures r.users.Keys == s.users.Keys
    ensures HeldBy(r.users, from) == HeldBy(s.users, from) - value
    ensures forall a :: a in s.users && a != from ==> r.users[a] == s.users[a]
    ensures r.histories.Keys == s.histories.Keys + {DayOf(now)}
    ensures forall d :: d in s.histories && d != DayOf(now) ==> r.histories[d] == s.histories[d]
  {
    var bar := s.bar.value;
    var usd := what * price;
    var user := s.users[from];
    var destroyed := CarriedAge(user, value, now);
    var bar' := BurnBar(bar, value, what, usd, destroyed, now);
    var history := BurnHistory(GetHistory(s.histories, now), bar', value, what, usd, destroyed);
    Store(Some(bar'), s.users[from := BurnUser(user, value, what, price, now)],
          s.histories[DayOf(now) := history])
  }

  // ---------------------------------------------------------------------
  // Peer transfer

  /** The sender: age accrues, the age of the sent shares leaves with them,
      the balance drops, the out-counters grow, and the sender leaves the
      pool exactly when nothing is left. */
  function SendUser(u: User, value: real, what: real, price: real, now: int): (r: User)
    requires u.xTrams != 0.0
    ensures r.xTrams == u.xTrams - value
    ensures r.xTramsAge == Accrued(u, now) - CarriedAge(u, value, now) && r.updatedAt == now
    ensures r.xTrams != 0.0 ==> r.xTramsAge / r.xTrams == Accrued(u, now) / u.xTrams
    ensures r.xTramsOut == u.xTramsOut + value
    ensures r.tramsOut == u.tramsOut + what && r.usdOut == u.usdOut + what * price
    ensures NetShares(r) == NetShares(u) - value
    ensures r.bar.None? <==> (r.xTrams == 0.0 || u.bar.None?)
    ensures r.xTrams != 0.0 ==> r.bar == u.bar
    ensures r.(xTrams := u.xTrams, xTramsAge := u.xTramsAge, updatedAt := u.updatedAt, bar := u.bar,
               xTramsOut := u.xTramsOut, tramsOut := u.tramsOut, usdOut := u.usdOut) == u
  {
    var age := Accrued(u, now);
    var moved := ProportionalAge(age, u.xTrams, value);
    var left := u.xTrams - value;
    ProportionalKeepsAverageIfLeft(age, u.xTrams, value);
    u.(xTramsAge := age - moved,
       updatedAt := now,
       xTrams := left,
       xTramsOut := u.xTramsOut + value,
       tramsOut := u.tramsOut + what,
       usdOut := u.usdOut + what * price,
       bar := if left == 0.0 then None else u.bar)
  }

  lemma ProportionalKeepsAverageIfLeft(age: real, balance: real, quantity: real)
    requires balance != 0.0
    ensures balance - quantity != 0.0 ==>
      (age - ProportionalAge(age, balance, quantity)) / (balance - quantity) == age / balance
  {
    if balance - quantity != 0.0 {
      ProportionalKeepsAverage(age, balance, quantity);
    }
  }

  /** Credits a receiver for shares it holds on net but has not yet been
      credited for: when the share difference is positive, the token and USD
      differences are added to its staked counters and all three differences
      are absorbed into the offsets. Otherwise nothing changes. */
  function Recognise(u: User): (r: User)
    ensures NetShares(u) > 0.0 ==>
      && r.tramsStaked == u.tramsStaked + NetTrams(u)
      && r.tramsStakedUSD == u.tramsStakedUSD + NetUsd(u)
      && NetShares(r) == 0.0 && NetTrams(r) == 0.0 && NetUsd(r) == 0.0
      && r.xTramsOffset == u.xTramsOffset + NetShares(u)
    ensures NetShares(u) <= 0.0 ==> r == u
    ensures NetShares(r) <= 0.0
    ensures r.tramsStaked - r.tramsOffset == u.tramsStaked - u.tramsOffset
    ensures r.tramsStakedUSD - r.usdOffset == u.tramsStakedUSD - u.usdOffset
    ensures r.(tramsStaked := u.tramsStaked, tramsStakedUSD := u.tramsStakedUSD,
               xTramsOffset := u.xTramsOffset, tramsOffset := u.tramsOffset, usdOffset := u.usdOffset) == u
  {
    var difference := NetShares(u);
    if difference > 0.0 then
      var trams := NetTrams(u);
      var usd := NetUsd(u);
      u.(tramsStaked := u.tramsStaked + trams,
         tramsStakedUSD := u.tramsStakedUSD + usd,
         xTramsOffset := u.xTramsOffset + difference,
         tramsOffset := u.tramsOffset + trams,
         usdOffset := u.usdOffset + usd)
    else
      u
  }

  /** The receiver before the offset step: it joins the pool if it was not a
      member, its age accrues and gains the age travelling with the shares,
      the balance and the in-counters grow. */
  function ReceiveUser(u: User, value: real, what: real, price: real, ageIn: real, now: int, barId: Address): (r: User)
    ensures r.xTrams == u.xTrams + value
    ensures r.xTramsAge == Accrued(u, now) + ageIn && r.updatedAt == now
    ensures r.bar == (if u.bar.None? then Some(barId) else u.bar)
    ensures r.xTramsIn == u.xTramsIn + value
    ensures r.tramsIn == u.tramsIn + what && r.usdIn == u.usdIn + what * price
    ensures NetShares(r) == NetShares(u) + value
    ensures r.(xTrams := u.xTrams, xTramsAge := u.xTramsAge, updatedAt := u.updatedAt, bar := u.bar,
               xTramsIn := u.xTramsIn, tramsIn := u.tramsIn, usdIn := u.usdIn) == u
  {
    u.(bar := if u.bar.None? then Some(barId) else u.bar,
       xTramsAge := Accrued(u, now) + ageIn,
       updatedAt := now,
       xTrams := u.xTrams + value,
       xTramsIn := u.xTramsIn + value,
       tramsIn := u.tramsIn + what,
       usdIn := u.usdIn + what * price)
  }

  /** The peer-transfer branch: `value` shares worth `what` tokens move from
      `from` to `to`, together with their share of the sender's age. The
      sender must hold shares: the source divides by its balance. */
  function Peer(s: Store, from: Address, to: Address, value: real, what: real, price: real, now: int): (r: Store)
    requires s.bar.Some?
    requires HeldBy(s.users, from) != 0.0
    ensures r.bar == s.bar && r.histories == s.histories
    ensures r.users.Keys == s.users.Keys + {to}
    ensures from != to ==> HeldBy(r.users, from) == HeldBy(s.users, from) - value
    ensures from != to ==> HeldBy(r.users, to) == HeldBy(s.users, to) + value
    ensures from == to ==> HeldBy(r.users, from) == HeldBy(s.users, from)
    ensures forall a :: a in s.users && a != from && a != to ==> r.users[a] == s.users[a]
  {
    var sender := s.users[from];
    var ageOut := CarriedAge(sender, value, now);
    var users := s.users[from := SendUser(sender, value, what, price, now)];
    var receiver := GetUser(users, to, s.bar.value.id, now);
    var received := Recognise(ReceiveUser(receiver, value, what, price, ageOut, now, s.bar.value.id));
    s.(users := users[to := received])
  }

  // ---------------------------------------------------------------------
  // The handler

  /** The store with the pool loaded (or created) and its ratio refreshed. */
  function Prepare(s: Store, ev: TransferEvent, env: Env): (r: Store)
    requires env.totalSupply > 0
    ensures r.bar.Some? && r.users == s.users && r.histories == s.histories
    ensures r.bar.value.id == (if s.bar.Some? then s.bar.value.id else env.barAddress)
    ensures r.bar.value.ratio * r.bar.value.totalSupply == r.bar.value.tramsStaked
    ensures r.bar.value.totalSupply == env.totalSupply as real / WAD
    ensures r.bar.value.tramsStaked == env.barBalance as real / WAD
  {
    Store(Some(Refresh(GetBar(s.bar, env.barAddress, ev.timestamp), env)), s.users, s.histories)
  }

  /** The staked-token worth of the transferred shares at the pool's ratio:
      once the ratio is refreshed, their pro-rata part of the staked tokens. */
  function Worth(s: Store, ev: TransferEvent): (r: real)
    requires s.bar.Some?
    ensures var b := s.bar.value;
      b.ratio * b.totalSupply == b.tramsStaked ==> r * b.totalSupply == Value(ev) * b.tramsStaked
    ensures ev.value == 0 ==> r == 0.0
  {
    Value(ev) * s.bar.value.ratio
  }

  function MintStep(s: Store, ev: TransferEvent, price: real): (r: Store)
    requires s.bar.Some?
    requires IsMint(ev) ==> ev.timestamp <= I32_MAX
    ensures r.bar.Some? && r.bar.value.ratio == s.bar.value.ratio && r.bar.value.totalSupply == s.bar.value.totalSupply
    ensures !IsMint(ev) ==> r == s
    ensures IsMint(ev) ==> HeldBy(r.users, ev.to) == HeldBy(s.users, ev.to) + Value(ev)
    ensures IsMint(ev) ==> PoolHeld(r.bar.value) == PoolHeld(s.bar.value) + Value(ev)
    ensures IsMint(ev) ==> forall a :: a in s.users && a != ev.to ==> a in r.users && r.users[a] == s.users[a]
  {
    if IsMint(ev) then Mint(s, ev.to, Value(ev), Worth(s, ev), price, ev.timestamp) else s
  }

  function BurnStep(s: Store, ev: TransferEvent, price: real): (r: Store)
    requires s.bar.Some?
    requires IsBurn(ev) ==> ev.timestamp <= I32_MAX && HeldBy(s.users, ev.from) != 0.0
    ensures r.bar.Some? && r.bar.value.ratio == s.bar.value.ratio && r.bar.value.totalSupply == s.bar.value.totalSupply
    ensures !IsBurn(ev) ==> r == s
    ensures IsBurn(ev) ==> HeldBy(r.users, ev.from) == HeldBy(s.users, ev.from) - Value(ev)
    ensures IsBurn(ev) ==> PoolHeld(r.bar.value) == PoolHeld(s.bar.value) - Value(ev)
    ensures IsBurn(ev) ==> forall a :: a in s.users && a != ev.from ==> a in r.users && r.users[a] == s.users[a]
  {
    if IsBurn(ev) then Burn(s, ev.from, Value(ev), Worth(s, ev), price, ev.timestamp) else s
  }

  function PeerStep(s: Store, ev: TransferEvent, price: real): (r: Store)
    requires s.bar.Some?
    requires IsPeer(ev) ==> HeldBy(s.users, ev.from) != 0.0
    ensures r.bar.Some? && r.bar == s.bar && r.histories == s.histories
    ensures !IsPeer(ev) ==> r == s
    ensures IsPeer(ev) && ev.from != ev.to ==>
      && HeldBy(r.users, ev.from) == HeldBy(s.users, ev.from) - Value(ev)
      && HeldBy(r.users, ev.to) == HeldBy(s.users, ev.to) + Value(ev)
    ensures IsPeer(ev) && ev.from == ev.to ==> HeldBy(r.users, ev.from) == HeldBy(s.users, ev.from)
    ensures IsPeer(ev) ==> forall a :: a in s.users && a != ev.from && a != ev.to ==> a in r.users && r.users[a] == s.users[a]
  {
    if IsPeer(ev) then Peer(s, ev.from, ev.to, Value(ev), Worth(s, ev), price, ev.timestamp) else s
  }

  /** The non-zero transfers the model covers: a non-zero share supply (the
      ratio divides by it), a non-zero balance for a burning holder or a
      sender (the age removal divides by it; when both addresses are zero the
      burn sees the balance the mint just raised), and, whenever a day bucket
      is touched, a timestamp of at most `I32_MAX` (larger timestamps are not
      modelled). */
  predicate Defined(s: Store, ev: TransferEvent, env: Env)
  {
    ev.value != 0 ==>
      && env.totalSupply > 0
      && ((IsMint(ev) || IsBurn(ev)) ==> ev.timestamp <= I32_MAX)
      && (IsBurn(ev) ==> HeldBy(s.users, ev.from) + (if IsMint(ev) then Value(ev) else 0.0) != 0.0)
      && (IsPeer(ev) ==> HeldBy(s.users, ev.from) != 0.0)
  }

  /** `Defined` asks for exactly what the handler's steps need, in the order
      they run: a non-zero supply for the refresh, a 32-bit timestamp for the
      mint's bucket, then for the burn a 32-bit timestamp and a non-zero
      balance as the mint left it, and for a peer transfer a non-zero sender
      balance on the store the first two steps left. */
  lemma DefinedExactly(s: Store, ev: TransferEvent, env: Env)
    ensures Defined(s, ev, env) <==>
      (ev.value != 0 ==>
        && env.totalSupply > 0
        && (IsMint(ev) ==> ev.timestamp <= I32_MAX)
        && var s2 := MintStep(Prepare(s, ev, env), ev, env.tramsPrice);
           && (IsBurn(ev) ==> ev.timestamp <= I32_MAX && HeldBy(s2.users, ev.from) != 0.0)
           && (IsPeer(ev) ==> HeldBy(BurnStep(s2, ev, env.tramsPrice).users, ev.from) != 0.0))
  {
  }

  /** The three branches in the source's order, each on the store the
      previous one left, after the pool has been refreshed. The burn sees the
      balance a mint of the same event left. */
  function Steps(s: Store, ev: TransferEvent, price: real): (r: Store)
    requires s.bar.Some?
    requires (IsMint(ev) || IsBurn(ev)) ==> ev.timestamp <= I32_MAX
    requires IsBurn(ev) ==> HeldBy(s.users, ev.from) + (if IsMint(ev) then Value(ev) else 0.0) != 0.0
    requires IsPeer(ev) ==> HeldBy(s.users, ev.from) != 0.0
    ensures r.bar.Some?
    ensures r.bar.value.ratio == s.bar.value.ratio && r.bar.value.totalSupply == s.bar.value.totalSupply
  {
    var s2 := MintStep(s, ev, price);
    var s3 := BurnStep(s2, ev, price);
    PeerStep(s3, ev, price)
  }

  /** One transfer event. A zero amount changes nothing: the source returns
      before loading any record. Otherwise the pool is refreshed and the
      mint, burn and peer branches run. */
  function Transfer(s: Store, ev: TransferEvent, env: Env): (r: Store)
    requires Defined(s, ev, env)
    ensures ev.value == 0 ==> r == s
    ensures ev.value != 0 ==> r.bar.Some?
    ensures ev.value != 0 ==> r.bar.value.totalSupply == env.totalSupply as real / WAD
    ensures ev.value != 0 ==> r.bar.value.ratio * r.bar.value.totalSupply == env.barBalance as real / WAD
  {
    if Value(ev) == 0.0 then s
    else
      var s1 := Prepare(s, ev, env);
      var r := Steps(s1, ev, env.tramsPrice);
      SameProduct(r.bar.value.ratio, r.bar.value.totalSupply, s1.bar.value.ratio, s1.bar.value.totalSupply);
      r
  }

  /** Equal factors give equal products; stated once so that the handler's
      contract does not ask the solver for non-linear reasoning. */
  lemma SameProduct(a: real, b: real, c: real, d: real)
    requires a == c && b == d
    ensures a * b == c * d
  {
  }
}

=== FILE: scenarios.dfy ===
/** Worked examples of the handler on small ledgers, stated as lemmas:
    ageing over a day, offset crediting on receipt, day bucketing, the first
    mint, and the burn behaviour that lets the pool's age go negative. */
module Scenarios {
  import opened Sums
  import opened Entities
  import opened Aging
  import opened Ledger
  import opened Invariants

  const A: Address := 1
  const POOL: Address := 3

  /** A holder of 100 shares with no age accrues 100 share-days over one
      day, before the mint changes its balance. */
  lemma OneDayOfAge(u: User, value: real, what: real, price: real, now: int)
    requires u.xTrams == 100.0 && u.xTramsAge == 0.0 && now == u.updatedAt + SECONDS_PER_DAY
    ensures var r := MintUser(u, value, what, price, now, POOL);
            r.xTramsAge == 100.0 && r.xTrams == 100.0 + value
  {
  }

  /** Peer receipt with the offset step, at a ratio of 2 tokens per share
      and a price of 3 USD per token. */
  function Receive(u: User, value: real, now: int): User
  {
    Recognise(ReceiveUser(u, value, value * 2.0, 3.0, 0.0, now, POOL))
  }

  /** A holder with no transfer history receiving 50 shares is credited all
      of them; a second receipt of 50 with nothing sent out in between is
      credited in full too. */
  lemma RepeatedReceiptsCredited(u: User)
    requires ZeroUser(u)
    ensures var u1 := Receive(u, 50.0, 10);
            && u1.xTramsOffset == 50.0 && u1.tramsStaked == 100.0 && u1.tramsStakedUSD == 300.0
            && var u2 := Receive(u1, 50.0, 20);
               u2.xTramsOffset == 100.0 && u2.tramsStaked == 200.0 && u2.tramsStakedUSD == 600.0
  {
    var u1 := Receive(u, 50.0, 10);
    assert NetShares(u1) == 0.0 && NetTrams(u1) == 0.0 && NetUsd(u1) == 0.0;
  }

  /** A holder that minted 30 shares, sent all 30 away and then receives 50
      is credited only the 20 it gained on net. (It must hold shares before
      it can send: a sender with no shares makes the source divide by zero.) */
  lemma PassThroughNotCredited(u: User)
    requires ZeroUser(u)
    ensures var minted := MintUser(u, 30.0, 60.0, 3.0, 0, POOL);
            var sent := SendUser(minted, 30.0, 60.0, 3.0, 10);
            var r := Receive(sent, 50.0, 20);
            && r.xTramsOffset == 20.0
            && r.tramsStaked == 60.0 + 40.0
            && r.tramsStakedUSD == 180.0 + 120.0
  {
    var minted := MintUser(u, 30.0, 60.0, 3.0, 0, POOL);
    var sent := SendUser(minted, 30.0, 60.0, 3.0, 10);
    assert NetShares(sent) == -30.0 && NetTrams(sent) == -60.0 && NetUsd(sent) == -180.0;
  }

  /** A peer transfer from an address with no shares is outside what the
      source can process: its age removal divides by the zero balance. */
  lemma FreshSenderUndefined(s: Store, ev: TransferEvent, env: Env)
    requires IsPeer(ev) && ev.value != 0 && ev.from !in s.users
    ensures !Defined(s, ev, env)
  {
  }

  /** A holder of 200 shares with 400 share-days of age burns all of them:
      400 share-days are destroyed and it leaves the pool, yet its own age
      stays at 400 rather than dropping to zero. */
  lemma BurnAllKeepsHolderAge(u: User, now: int)
    requires u.xTrams == 200.0 && u.xTramsAge == 400.0 && u.xTramsAgeDestroyed == 0.0 && u.updatedAt == now
    ensures var r := BurnUser(u, 200.0, 200.0, 1.0, now);
            && CarriedAge(u, 200.0, now) == 400.0
            && r.xTramsAgeDestroyed == 400.0
            && r.xTrams == 0.0 && r.bar.None?
            && r.xTramsAge == 400.0
  {
  }

  /** The first mint into an empty ledger, with 1000 shares outstanding and
      1000 tokens staked on chain after it: the ratio is 1, the minted shares
      are worth 1000 tokens, and the pool's staked balance counts them twice. */
  lemma FirstMint(ev: TransferEvent, env: Env)
    requires ev.from == ZERO && ev.to == A && ev.value == 1000 * 1000000000000000000 && ev.timestamp == 50
    requires env.totalSupply == 1000 * 1000000000000000000 && env.barBalance == 1000 * 1000000000000000000
    ensures var r := Transfer(Store(None, map[], map[]), ev, env);
            && r.bar.Some? && r.bar.value.ratio == 1.0
            && A in r.users && r.users[A].tramsStaked == 1000.0 && r.users[A].xTrams == 1000.0
            && r.bar.value.tramsStaked == 2000.0
  {
  }

  /** Two timestamps of the same day share a bucket; the next day has its own. */
  lemma DayBoundaries()
    ensures DayOf(100000) == DayOf(172799) == 1
    ensures DayOf(172800) == 2
  {
  }

  /** Two mints on the same day are summed into a single bucket. */
  lemma SameDayMintsShareBucket(s: Store, to: Address, t1: int, t2: int)
    requires s.bar.Some? && s.histories == map[]
    requires 0 <= t1 <= t2 <= I32_MAX && DayOf(t1) == DayOf(t2)
    ensures var r := Mint(Mint(s, to, 5.0, 5.0, 1.0, t1), to, 7.0, 7.0, 1.0, t2);
            && r.histories.Keys == {DayOf(t1)}
            && r.histories[DayOf(t1)].xTramsMinted == 12.0
  {
  }

  // ---------------------------------------------------------------------
  // The pool's age can become negative

  /** One holder `A` who minted 1 share at time 0; nothing else has happened. */
  predicate OneHolder(s: Store)
  {
    && s.bar.Some? && s.users.Keys == {A} && s.histories.Keys == {0}
    && PoolStart(s.bar.value) && HolderStart(s.users[A]) && BucketStart(s.histories[0])
  }

  predicate PoolStart(bar: Bar)
  {
    && bar.xTramsMinted == 1.0 && bar.xTramsBurned == 0.0 && bar.xTramsAge == 0.0
    && bar.xTramsAgeDestroyed == 0.0 && bar.updatedAt == 0
  }

  predicate HolderStart(u: User)
  {
    && u.bar.Some? && u.xTrams == 1.0 && u.xTramsMinted == 1.0 && u.xTramsBurned == 0.0
    && u.xTramsIn == 0.0 && u.xTramsOut == 0.0 && u.xTramsOffset == 0.0
    && u.xTramsAge == 0.0 && u.xTramsAgeDestroyed == 0.0 && u.updatedAt == 0
  }

  predicate BucketStart(h: History)
  {
    h.xTramsMinted == 1.0 && h.xTramsBurned == 0.0 && h.xTramsAgeDestroyed == 0.0
  }

  /** Such a ledger satisfies every invariant. */
  lemma OneHolderSound(s: Store, T: int)
    requires OneHolder(s)
    ensures Balanced(s) && HoldersOk(s.users) && AgeBalanced(s, T)
  {
    SumRemove(s.users, Balance, A);
    SumRemove(s.users, HolderAgeDestroyed, A);
    SumRemove(s.users, AgeAtTime(T), A);
    SumRemove(s.histories, DayMinted, 0);
    SumRemove(s.histories, DayBurned, 0);
    SumRemove(s.histories, DayAgeDestroyed, 0);
    assert s.users - {A} == map[];
    assert s.histories - {0} == map[];
  }

  /** From that sound ledger, the holder burns half a share one day later and
      the other half at the same instant. Because the first burn left the
      holder's age in place, the second destroys more age than the pool had,
      and the pool's xTramsAge ends at -0.5 share-days. */
  lemma PoolAgeGoesNegative(s: Store)
    requires OneHolder(s)
    ensures var s1 := Burn(s, A, 0.5, 0.5, 1.0, SECONDS_PER_DAY);
            var s2 := Burn(s1, A, 0.5, 0.5, 1.0, SECONDS_PER_DAY);
            s2.bar.value.xTramsAge == -0.5
  {
    var s1 := Burn(s, A, 0.5, 0.5, 1.0, SECONDS_PER_DAY);
    assert s1.users[A].xTramsAge == 1.0 && s1.users[A].xTrams == 0.5;
    assert s1.bar.value.xTramsAge == 0.5;
  }
}

=== FILE: sums.dfy ===
/** Totals of a real-valued measure over the records of a keyed store.

    The ledger keeps holders and day buckets in maps; the invariants relate a
    pool-wide counter to the total of a per-record field, so this module gives
    that total and the two facts every proof about it needs: how it changes
    when one key is written, and that it is linear in the measure. */
module Sums {

  /** The total of `f` over every value stored in `m`. */
  ghost function Sum<K, V>(m: map<K, V>, f: V -> real): real
    decreases |m|
  {
    if m == map[] then 0.0
    else
      var k :| k in m;
      f(m[k]) + Sum(m - {k}, f)
  }

  /** Any stored key can be taken out first: the total does not depend on
      the order in which the keys are visited. */
  lemma {:induction false} SumRemove<K, V>(m: map<K, V>, f: V -> real, k: K)
    requires k in m
    ensures Sum(m, f) == f(m[k]) + Sum(m - {k}, f)
    decreases |m|
  {
    var j :| j in m && Sum(m, f) == f(m[j]) + Sum(m - {j}, f);
    if j != k {
      SumRemove(m - {j}, f, k);
      SumRemove(m - {k}, f, j);
      assert m - {j} - {k} == m - {k} - {j};
    }
  }

  /** Writing `v` under `k` replaces the old contribution of `k` (nothing,
      when `k` was absent) by the contribution of `v`. */
  lemma SumUpdate<K, V>(m: map<K, V>, f: V -> real, k: K, v: V)
    ensures Sum(m[k := v], f) == Sum(m, f) + f(v) - (if k in m then f(m[k]) else 0.0)
  {
    SumRemove(m[k := v], f, k);
    assert m[k := v] - {k} == m - {k};
    if k in m {
      SumRemove(m, f, k);
    } else {
      assert m - {k} == m;
    }
  }

  /** A measure that is pointwise `g + c * h` totals to `Sum(g) + c * Sum(h)`. */
  lemma {:induction false} SumLinear<K, V>(m: map<K, V>, f: V -> real, g: V -> real, h: V -> real, c: real)
    requires forall v :: f(v) == g(v) + c * h(v)
    ensures Sum(m, f) == Sum(m, g) + c * Sum(m, h)
    decreases |m|
  {
    if m != map[] {
      var k :| k in m;
      var rest := m - {k};
      SumRemove(m, f, k);
      SumRemove(m, g, k);
      SumRemove(m, h, k);
      SumLinear(rest, f, g, h, c);
      assert c * (h(m[k]) + Sum(rest, h)) == c * h(m[k]) + c * Sum(rest, h);
      assert f(m[k]) == g(m[k]) + c * h(m[k]);
      assert Sum(m, f) == (g(m[k]) + Sum(rest, g)) + c * (h(m[k]) + Sum(rest, h));
    }
  }
}
